=== FILE: README.md ===
# Comments list fragment — a Dafny model

This project models the sequential core of WordPress for Android's comments
list screen (`CommentsListFragment`). It covers three pieces of logic:

- **Sync state machine.** The flags `mIsUpdatingComments`, `mCanLoadMoreComments`
  and `mHasCheckedDeletedComments` and the empty-view message are driven by
  `updateComments`, by the phases of the `UpdateCommentsTask` background task,
  and by the refresh, load-more and data-loaded listeners. The model covers the
  re-entrancy guard, the page request (offset and page size), the one-shot
  pruning of comments deleted on the server, the classification of errors, and
  how the empty view's message is derived.
- **Batch moderation.** `moderateSelectedComments` sends only the selected
  comments whose status changes. `deleteSelectedComments` trashes the whole
  selection. The moderation listeners then close the action mode and, on a
  non-empty result, clear the selection and replace or remove the returned
  comments.
- **Contextual menu.** `onPrepareActionMode` decides which of approve,
  unapprove, spam and trash are enabled. `onActionItemClicked` dispatches on
  the clicked item.

The fragment's fields form one immutable `Fragment.State`. Each listener, task
phase and menu callback is a pure function from a state and the event's inputs
to a `Transition`: the next state plus the `Effect`s it asks of collaborators
(page fetches, pruning, database reloads, remote moderation, toasts).
`Fragment.Step` dispatches an `Event` to these functions. `Traces.Run` folds a
sequence of events. Most lemmas in `Traces` hold for every run; three
(`LoadMoreRequestsNextPage`, `UnauthorizedRefresh`, `CancelledFetchLeavesNoTrace`)
each follow one fixed sequence of events.

Files:

- `wrappers.dfy`: `Option`.
- `comments.dfy`: comments, statuses and the adapter's list operations, stated as
  sequence operations. These are selection, replacement, deletion and the
  status scans.
- `action_menu.dfy`: the enablement predicates of the contextual menu.
- `moderation.dfy`: the moderation batch and how it relates to the menu.
- `fragment.dfy`: the state, the events and one function per handler.
- `traces.dfy`: runs of events and the properties that hold over them.

Collaborators whose code is not part of this model become event parameters:
network reachability, the current blog, the remote reply, the list reloaded
from the local database, the result of a remote moderation, `isFinishing()`
and `isCancelled()`.

## Model

| member | source | states |
|---|---|---|
| Comments.HasAnyWithStatus | WordPress/src/main/java/org/wordpress/android/ui/comments/CommentsListFragment.java:617-619 | true exactly when some comment in the list has the given status |
| Comments.HasAnyWithoutStatus | WordPress/src/main/java/org/wordpress/android/ui/comments/CommentsListFragment.java:620 | true exactly when some comment in the list has a status other than the given one |
| Comments.SelectedComments | WordPress/src/main/java/org/wordpress/android/ui/comments/CommentsListFragment.java:614 | the selected comments are exactly the list entries whose id is selected, each as often as in the list, in list order; the result is empty iff no list entry is selected |
| Comments.FindById | WordPress/src/main/java/org/wordpress/android/ui/comments/CommentsListFragment.java:292 | finds a comment iff the id occurs, and what it finds is a member of the sequence with that id |
| Comments.ReplaceComments | WordPress/src/main/java/org/wordpress/android/ui/comments/CommentsListFragment.java:292 | replacement keeps length, order and ids; entries whose id was returned become a returned comment, all other entries are unchanged |
| Comments.DeleteComments | WordPress/src/main/java/org/wordpress/android/ui/comments/CommentsListFragment.java:341 | deletion keeps exactly the entries whose id was not returned, each as often as before, in order; the remaining ids are the old ids minus the returned ones |
| Comments.ReplaceIsIdempotent | WordPress/src/main/java/org/wordpress/android/ui/comments/CommentsListFragment.java:292 | illustrative property of the adapter's replacement, not relied on by the fragment: applying the same moderation result twice gives the same list as applying it once |
| Comments.DeleteUnlistedIsNoop | WordPress/src/main/java/org/wordpress/android/ui/comments/CommentsListFragment.java:341 | illustrative property of the adapter's deletion, not relied on by the fragment: deleting comments none of which is in the list leaves the list unchanged |
| ActionMenu.PrepareMenu | WordPress/src/main/java/org/wordpress/android/ui/comments/CommentsListFragment.java:612-628 | approve is enabled iff some selected comment is unapproved or spam; unapprove iff some is approved; spam iff some is not spam; trash iff the selection is non-empty; an empty selection disables all four |
| ActionMenu.SomeItemEnabledIffSelection | WordPress/src/main/java/org/wordpress/android/ui/comments/CommentsListFragment.java:616-625 | at least one menu item is enabled iff something is selected |
| ActionMenu.ApproveOrSpamEnabled | WordPress/src/main/java/org/wordpress/android/ui/comments/CommentsListFragment.java:622-624 | on a non-empty selection, approve or spam is always enabled |
| Moderation.ModerationBatch | WordPress/src/main/java/org/wordpress/android/ui/comments/CommentsListFragment.java:255-260 | the batch holds exactly the selected comments whose status differs from the target, each as often as in the selection, in order; it is empty iff every selected comment already has the target status |
| Moderation.SpamEnabledIffBatchNonEmpty | WordPress/src/main/java/org/wordpress/android/ui/comments/CommentsListFragment.java:620-624 | the spam item is enabled iff marking the selection as spam would send a non-empty batch |
| Moderation.ApproveEnabledHasBatch | WordPress/src/main/java/org/wordpress/android/ui/comments/CommentsListFragment.java:622 | an enabled approve item always produces a non-empty approve batch |
| Moderation.UnapproveEnabledHasBatch | WordPress/src/main/java/org/wordpress/android/ui/comments/CommentsListFragment.java:623 | an enabled unapprove item always produces a non-empty unapprove batch |
| Fragment.UpdateEmptyView | WordPress/src/main/java/org/wordpress/android/ui/comments/CommentsListFragment.java:518-548 | when attached, the view is shown iff the list is empty; a new message is recorded only while the view is shown; detached, nothing changes; nothing but the message and the visibility ever changes |
| Fragment.UpdateComments | WordPress/src/main/java/org/wordpress/android/ui/comments/CommentsListFragment.java:363-377 | while a task runs, nothing changes; a task starts iff none runs and the network is available, and then the empty view is updated to LOADING; without network the empty view reports it; list, selection and flags are untouched |
| Fragment.StartRefresh | WordPress/src/main/java/org/wordpress/android/ui/comments/CommentsListFragment.java:212-224 | pull-to-refresh is ignored when detached or in the action mode; offline it reports the network error even during a fetch; otherwise it is exactly updateComments(false), so it starts a refresh task iff idle and leaves a running task alone |
| Fragment.LoadMore | WordPress/src/main/java/org/wordpress/android/ui/comments/CommentsListFragment.java:86-93 | when more may not be loaded or a task runs, nothing changes; otherwise it is an update for more: it starts a load-more task iff the network is available, and offline the empty view reports the network error |
| Fragment.RunBackground | WordPress/src/main/java/org/wordpress/android/ui/comments/CommentsListFragment.java:418-448 | out of phase nothing changes; only the deletion flag and the task ever change; pruning is requested iff this is a pending refresh task, attached, with a blog, and deletions were not yet checked, and it comes before the fetch; the flag is then set and never cleared; the page request is the last effect, carries 30 and an offset iff loading more, equal to the item count, and the task then awaits exactly that request; detached or without a blog the task finishes with a null result |
| Fragment.SendRequest | WordPress/src/main/java/org/wordpress/android/ui/comments/CommentsListFragment.java:429-450 | for a pending task that may fetch, only the deletion flag and the task change; pruning is requested iff deletions were not yet checked and this is a refresh, and then comes first; exactly one page request, for the computed offset and size, is sent last, and the task awaits exactly it |
| Fragment.ClassifyReply | WordPress/src/main/java/org/wordpress/android/ui/comments/CommentsListFragment.java:449-459 | a returned list carries no error; the error is UNAUTHORIZED iff the reply is fault 401; every other fault or exception is UNKNOWN_ERROR with a null result |
| Fragment.ReceiveReply | WordPress/src/main/java/org/wordpress/android/ui/comments/CommentsListFragment.java:449-460 | a task awaiting its reply finishes with the classified result and error; nothing else changes |
| Fragment.ReportOutcome | WordPress/src/main/java/org/wordpress/android/ui/comments/CommentsListFragment.java:477-499 | at most one effect, and only the reload or one of the two refresh toasts; when finishing nothing happens; when comments came back only a reload is requested; the unauthorized toast iff a null result with UNAUTHORIZED and the empty view not visible; the generic toast iff a null result with another error; over an empty list the view shows PERMISSION_ERROR, GENERIC_ERROR or NO_CONTENT; the view is never newly shown over comments; over comments the message is unchanged; only the message and the visibility change |
| Fragment.PostExecute | WordPress/src/main/java/org/wordpress/android/ui/comments/CommentsListFragment.java:462-501 | a finished task always clears the updating flag and the task; detached or cancelled, nothing else changes; otherwise more may be loaded iff the result is non-null and non-empty; list and selection are untouched |
| Fragment.Cancel | WordPress/src/main/java/org/wordpress/android/ui/comments/CommentsListFragment.java:409-415 | cancellation clears the updating flag and the task and leaves the load-more flag, the list, the selection and the empty view untouched |
| Fragment.LoadData | WordPress/src/main/java/org/wordpress/android/ui/comments/CommentsListFragment.java:70-82 | the list becomes the reloaded items and only the list, the message and the visibility change; when attached, comments hide the empty view; the message changes iff it was LOADING, the list is empty, no task runs and the fragment is attached, and then it becomes NO_CONTENT; an empty reload that keeps the message keeps the visibility |
| Fragment.ChangeSelection | WordPress/src/main/java/org/wordpress/android/ui/comments/CommentsListFragment.java:96-108 | the action mode stays active iff it was active and something is selected; while active, the menu is prepared again for the new selection |
| Fragment.Toggle | WordPress/src/main/java/org/wordpress/android/ui/comments/CommentsListFragment.java:123 | toggling flips the membership of that one id and keeps every other id |
| Fragment.PressComment | WordPress/src/main/java/org/wordpress/android/ui/comments/CommentsListFragment.java:111-125 | a tap opens the comment iff it is in range, outside the action mode and not being moderated; inside the action mode it toggles the comment's selection |
| Fragment.LongPressComment | WordPress/src/main/java/org/wordpress/android/ui/comments/CommentsListFragment.java:127-138 | outside the action mode a long press starts it and the selection becomes the old selection plus that comment; inside the mode it toggles the comment's selection, as a tap does; out of range nothing changes; sync flags and list are untouched |
| Fragment.SetModerating | WordPress/src/main/java/org/wordpress/android/ui/comments/CommentsListFragment.java:379-387 | when attached, the id is in the moderating set iff it was just marked; every other id keeps its membership |
| Fragment.ModerateSelected | WordPress/src/main/java/org/wordpress/android/ui/comments/CommentsListFragment.java:251-304 | the state is unchanged; one call is made iff online, the target is a known status and some selected comment differs from it; the call carries exactly the moderation batch of the selection: the selected comments whose status differs, each once as in the list, in list order |
| Fragment.DeleteSelected | WordPress/src/main/java/org/wordpress/android/ui/comments/CommentsListFragment.java:327-350 | when online, one trash call carries exactly the selection as the adapter returns it, each selected comment once, in list order, without filtering by status; offline, nothing happens |
| Fragment.ClickActionItem | WordPress/src/main/java/org/wordpress/android/ui/comments/CommentsListFragment.java:630-652 | a click is handled iff something is selected and the item is known; trash asks for confirmation and the other items moderate to their status |
| Fragment.ResolveModeration | WordPress/src/main/java/org/wordpress/android/ui/comments/CommentsListFragment.java:283-346 | when attached, the action mode always ends; an empty result only adds the failure toast; a non-empty result clears the selection and replaces the returned comments (status change) or leaves exactly the list with the returned ids deleted (trash); the attached flag and the sync flags are untouched |
| Fragment.InitialIsValid | WordPress/src/main/java/org/wordpress/android/ui/comments/CommentsListFragment.java:50-63 | a new fragment is idle, may load more, has not checked deletions, and satisfies the invariant |
| Fragment.StepPreservesValid | WordPress/src/main/java/org/wordpress/android/ui/comments/CommentsListFragment.java:401-415 | every event keeps the invariant: updating iff a task exists, no empty view over comments, and refresh requests only after the deletion check |
| Fragment.FetchOnlyFromPendingTask | WordPress/src/main/java/org/wordpress/android/ui/comments/CommentsListFragment.java:436-450 | a page request is only issued by a task that has not sent one, and that task then awaits exactly that request |
| Fragment.StartOnlyWhenIdle | WordPress/src/main/java/org/wordpress/android/ui/comments/CommentsListFragment.java:363-366 | a new pending task only appears when no task was running |
| Fragment.UnauthorizedIsReported | WordPress/src/main/java/org/wordpress/android/ui/comments/CommentsListFragment.java:480-485 | in an attached, non-cancelled post-execute while the activity is not finishing, an UNAUTHORIZED failure of a valid state gives a toast or the empty view showing PERMISSION_ERROR |
| Fragment.BackgroundFetchAccounting | WordPress/src/main/java/org/wordpress/android/ui/comments/CommentsListFragment.java:436-450 | the background phase sends at most one request, and only by consuming the pending task |
| Fragment.StepFetchAccounting | WordPress/src/main/java/org/wordpress/android/ui/comments/CommentsListFragment.java:363-376 | each event's page requests plus the pending tasks left never exceed the pending tasks before plus the tasks it starts |
| Fragment.StepReconcilesOnce | WordPress/src/main/java/org/wordpress/android/ui/comments/CommentsListFragment.java:429-434 | an event requests pruning at most once, only for a pending refresh task while the flag is clear, and the flag is never cleared |
| Traces.RunPreservesValid | WordPress/src/main/java/org/wordpress/android/ui/comments/CommentsListFragment.java:401-415 | every run from a valid state ends in a valid state |
| Traces.ReconciliationAtMostOnce | WordPress/src/main/java/org/wordpress/android/ui/comments/CommentsListFragment.java:429-434 | over any run, pruning is requested at most once, never once the flag is set, and the flag stays set afterwards |
| Traces.FetchesMatchStartedTasks | WordPress/src/main/java/org/wordpress/android/ui/comments/CommentsListFragment.java:363-376 | over any run, page requests never outnumber the tasks started plus the one pending at the start; together with Fragment.FetchOnlyFromPendingTask (each request consumes the pending task), no task sends two |
| Traces.SyncNeverTouchesList | WordPress/src/main/java/org/wordpress/android/ui/comments/CommentsListFragment.java:493-499 | sync events never change the list or the selection (a fetch only asks for a reload); without a post-execute the load-more flag is untouched too |
| Traces.LoadMoreRequestsNextPage | WordPress/src/main/java/org/wordpress/android/ui/comments/CommentsListFragment.java:436-443 | load-more from an idle fragment sends exactly one request, with offset equal to the item count and number 30 |
| Traces.UnauthorizedRefresh | WordPress/src/main/java/org/wordpress/android/ui/comments/CommentsListFragment.java:478-485 | an unauthorized refresh toasts iff the list has comments; over an empty list the view shows PERMISSION_ERROR; no more pages are offered |
| Traces.CancelledFetchLeavesNoTrace | WordPress/src/main/java/org/wordpress/android/ui/comments/CommentsListFragment.java:409-415 | for the run update, background, reply, cancel: the list, the selection and the load-more flag end as before, and the fragment is idle (a pruning request and the deletion flag may remain) |

## Left out

- Views and their plumbing are not modelled. This covers the recycler, the
  progress bar, the swipe indicator, item decorations, menu icon alpha,
  progress dialogs and their ids, toast texts, action-mode titles and
  `onSaveInstanceState`. Toasts become `Toast` effects, and confirming a trash
  becomes the `ConfirmTrash` effect followed by the `TrashConfirmed` event.
- `AsyncTask` threading is not modelled. Each task phase is one atomic event.
  A phase event that arrives at the wrong phase changes nothing.
- `onActivityCreated`, `onCreateView` and `onResume` are left out: their
  auto-refresh and the restoring of the saved message are lifecycle wiring.
  `getEmptyViewMessage`, `removeComment` and `loadComments` are one-line
  pass-throughs, also left out.
- The three guards `isAdded()`, `hasAdapter()` and `mEmptyView != null` are
  merged into one `attached` flag. Detaching is a one-way `Detached` event.
  `isFinishing()` and `isCancelled()` are event parameters.
  `instanceof AppCompatActivity` and `instanceof OnCommentSelectedListener` are
  taken as true.
- `ApiHelper`, `NetworkUtils`, `WordPress.getCurrentBlog` and the SQLite reload
  become inputs. The toast that `NetworkUtils.checkConnection` shows is not
  modelled.
- The internals of `CommentAdapter`, `CommentList`, `CommentActions` and
  `CommentStatus` are not part of this model. Their list operations are stated
  as sequence operations. Ending the action mode does not clear the selection:
  the adapter's `setEnableSelection(false)` is not modelled.
- `Status.Unknown` stands for any status value other than the four the
  fragment switches on. For that value `moderateSelectedComments` returns
  without a call.
- Fragment.PressComment: a position past the end of the list is a no-op here.
  In the source, `getItem` would throw.
- Fragment.LongPressComment: a position past the end of the list is a no-op
  here. In the source, a long press outside the action mode starts the mode
  before the position is used; what the adapter does with a bad position is not
  part of this model.

## Behaviour of the code worth knowing

- **Fetched comments are not merged**
  (`CommentsListFragment.java:493-499`). After a fetch that returned comments,
  the post-execute step only asks the adapter to reload the list from the local
  database. The model emits `ReloadComments`, and the list changes only when
  `DataLoaded` arrives. Sync events never change the list themselves (see
  `Traces.SyncNeverTouchesList`).
- **The unauthorized toast is suppressed only while the empty view is visible**
  (`CommentsListFragment.java:481-484`). A refresh from an idle fragment shows
  LOADING over an empty list first, so in a refresh with no reload in between
  the toast appears exactly when the list has comments (see
  `Traces.UnauthorizedRefresh`). Two such refreshes over a non-empty list give
  two toasts. A reload that empties the list while a task runs leaves the empty
  view hidden (`CommentsListFragment.java:75-80`), so the toast can then appear
  over an empty list.
- **The trash path checks the network first and sends the unfiltered selection**
  (`CommentsListFragment.java:327-349`). It returns before anything else when
  offline, and it sends every selected comment, including those already in the
  trash (see `Fragment.DeleteSelected`).

=== FILE: action_menu.dfy ===
/**
 * The contextual action bar shown while comments are multi-selected: which of
 * its four moderation items are enabled for a given selection.
 */
module ActionMenu {

  import opened Comments

  /** Enablement of the approve, unapprove, spam and trash items. */
  datatype MenuState = MenuState(approve: bool, unapprove: bool, spam: bool, trash: bool)

  /** The items of the action bar; OtherItem is any item id the callback does not know. */
  datatype MenuItem = ApproveItem | UnapproveItem | SpamItem | TrashItem | OtherItem

  const AllDisabled := MenuState(false, false, false, false)

  /**
   * onPrepareActionMode: approving makes sense when something is unapproved or
   * spam, unapproving when something is approved, marking as spam when
   * something is not yet spam, and trashing whenever anything is selected.
   */
  function PrepareMenu(selected: seq<Comment>): (m: MenuState)
    ensures m.approve <==> exists i :: 0 <= i < |selected| && selected[i].status in {Unapproved, Spam}
    ensures m.unapprove <==> exists i :: 0 <= i < |selected| && selected[i].status == Approved
    ensures m.spam <==> exists i :: 0 <= i < |selected| && selected[i].status != Spam
    ensures m.trash <==> |selected| > 0
    ensures |selected| == 0 ==> m == AllDisabled
  {
    var hasSelection := |selected| > 0;
    var hasApproved := hasSelection && HasAnyWithStatus(selected, Approved);
    var hasUnapproved := hasSelection && HasAnyWithStatus(selected, Unapproved);
    var hasSpam := hasSelection && HasAnyWithStatus(selected, Spam);
    var hasAnyNonSpam := hasSelection && HasAnyWithoutStatus(selected, Spam);
    MenuState(hasUnapproved || hasSpam, hasApproved, hasAnyNonSpam, hasSelection)
  }

  /** Some item is enabled exactly when the selection is non-empty; trash then always is. */
  lemma SomeItemEnabledIffSelection(selected: seq<Comment>)
    ensures PrepareMenu(selected) != AllDisabled <==> |selected| > 0
  {
  }

  /** On a non-empty selection approve or spam is enabled: either something is not spam yet, or all of it is spam. */
  lemma ApproveOrSpamEnabled(selected: seq<Comment>)
    requires |selected| > 0
    ensures PrepareMenu(selected).approve || PrepareMenu(selected).spam
  {
    if selected[0].status == Spam {
      assert selected[0].status in {Unapproved, Spam};
    }
  }
}

=== FILE: comments.dfy ===
/**
 * Comments as the list fragment sees them: an identifier and a moderation
 * status, kept in an ordered list. The adapter's list operations (selected
 * comments, replace, delete) are stated here as plain sequence operations.
 */
module Comments {

  import opened Wrappers

  /** Server-assigned comment identifier (a Java long; unbounded here). */
  type CommentId = int

  /**
   * Moderation status. Unknown stands for any status other than the four the
   * fragment switches on (the switch's default branch).
   */
  datatype Status = Approved | Unapproved | Spam | Trash | Unknown

  datatype Comment = Comment(id: CommentId, status: Status)

  /** The identifiers occurring in a sequence of comments. */
  function Ids(cs: seq<Comment>): set<CommentId>
  {
    set c | c in cs :: c.id
  }

  /** True if `sub` is `list` with some entries dropped, the rest kept in order. */
  ghost predicate IsSubsequence(sub: seq<Comment>, list: seq<Comment>)
    decreases |list|
  {
    if |sub| == 0 then true
    else if |list| == 0 then false
    else if sub[0] == list[0] then IsSubsequence(sub[1..], list[1..])
    else IsSubsequence(sub, list[1..])
  }

  /**
   * The entries of `list` that satisfy `keep`, in their original order: the one
   * filtering concept behind selection, deletion and the moderation batch.
   */
  function Filter(list: seq<Comment>, keep: Comment -> bool): (r: seq<Comment>)
    ensures forall c :: c in r <==> c in list && keep(c)
    ensures |r| <= |list|
    ensures IsSubsequence(r, list)
    ensures forall c {:trigger multiset(r)[c]} :: multiset(r)[c] == if keep(c) then multiset(list)[c] else 0
    ensures (forall i :: 0 <= i < |list| ==> keep(list[i])) ==> r == list
  {
    if |list| == 0 then []
    else
      var rest := Filter(list[1..], keep);
      assert list == [list[0]] + list[1..];
      assert multiset(list) == multiset{list[0]} + multiset(list[1..]);
      if keep(list[0]) then
        assert multiset([list[0]] + rest) == multiset{list[0]} + multiset(rest);
        [list[0]] + rest
      else rest
  }

  /** Whether some comment in `cs` has status `status` (CommentList.hasAnyWithStatus). */
  function HasAnyWithStatus(cs: seq<Comment>, status: Status): (b: bool)
    ensures b <==> exists i :: 0 <= i < |cs| && cs[i].status == status
  {
    if |cs| == 0 then false
    else if cs[0].status == status then true
    else
      var b := HasAnyWithStatus(cs[1..], status);
      assert forall i :: 1 <= i < |cs| ==> cs[i] == cs[1..][i - 1];
      b
  }

  /** Whether some comment in `cs` has a status other than `status` (CommentList.hasAnyWithoutStatus). */
  function HasAnyWithoutStatus(cs: seq<Comment>, status: Status): (b: bool)
    ensures b <==> exists i :: 0 <= i < |cs| && cs[i].status != status
  {
    if |cs| == 0 then false
    else if cs[0].status != status then true
    else
      var b := HasAnyWithoutStatus(cs[1..], status);
      assert forall i :: 1 <= i < |cs| ==> cs[i] == cs[1..][i - 1];
      b
  }

  /** The comments of `list` whose identifier is selected, in list order (getSelectedComments). */
  function SelectedComments(list: seq<Comment>, selected: set<CommentId>): (r: seq<Comment>)
    ensures forall c :: c in r <==> c in list && c.id in selected
    ensures forall c {:trigger multiset(r)[c]} :: multiset(r)[c] == if c.id in selected then multiset(list)[c] else 0
    ensures |r| == 0 <==> forall i :: 0 <= i < |list| ==> list[i].id !in selected
    ensures IsSubsequence(r, list)
  {
    Filter(list, (c: Comment) => c.id in selected)
  }

  /** A comment of `cs` with identifier `id`, if there is one. */
  function FindById(cs: seq<Comment>, id: CommentId): (r: Option<Comment>)
    ensures r.Some? <==> id in Ids(cs)
    ensures r.Some? ==> r.value in cs && r.value.id == id
  {
    if |cs| == 0 then None
    else if cs[0].id == id then Some(cs[0])
    else
      var r := FindById(cs[1..], id);
      assert forall c :: c in cs ==> c == cs[0] || c in cs[1..];
      r
  }

  /**
   * The list with every entry whose identifier occurs in `updated` replaced by
   * the updated comment (the adapter's replaceComments); length, order and
   * identifiers are kept.
   */
  function ReplaceComments(list: seq<Comment>, updated: seq<Comment>): (r: seq<Comment>)
    ensures |r| == |list|
    ensures forall i :: 0 <= i < |list| ==> r[i].id == list[i].id
    ensures forall i :: 0 <= i < |list| && list[i].id in Ids(updated) ==> r[i] in updated
    ensures forall i :: 0 <= i < |list| && list[i].id !in Ids(updated) ==> r[i] == list[i]
  {
    seq(|list|, i requires 0 <= i < |list| =>
      match FindById(updated, list[i].id)
      case Some(u) => u
      case None => list[i])
  }

  /** The list without the entries whose identifier occurs in `deleted` (the adapter's deleteComments). */
  function DeleteComments(list: seq<Comment>, deleted: seq<Comment>): (r: seq<Comment>)
    ensures forall c :: c in r <==> c in list && c.id !in Ids(deleted)
    ensures forall c {:trigger multiset(r)[c]} :: multiset(r)[c] == if c.id in Ids(deleted) then 0 else multiset(list)[c]
    ensures IsSubsequence(r, list)
    ensures Ids(r) == Ids(list) - Ids(deleted)
  {
    var gone := Ids(deleted);
    Filter(list, (c: Comment) => c.id !in gone)
  }

  /** Replacing with the same comments a second time changes nothing more (a property of the adapter's list, illustrative). */
  lemma ReplaceIsIdempotent(list: seq<Comment>, updated: seq<Comment>)
    ensures ReplaceComments(ReplaceComments(list, updated), updated) == ReplaceComments(list, updated)
  {
    var once := ReplaceComments(list, updated);
    var twice := ReplaceComments(once, updated);
    forall i | 0 <= i < |list|
      ensures twice[i] == once[i]
    {
      if list[i].id in Ids(updated) {
        assert once[i] == FindById(updated, list[i].id).value;
      }
    }
  }

  /** Deleting comments none of whose identifiers are listed leaves the list as it is (illustrative, like the above). */
  lemma DeleteUnlistedIsNoop(list: seq<Comment>, deleted: seq<Comment>)
    requires Ids(list) !! Ids(deleted)
    ensures DeleteComments(list, deleted) == list
  {
    forall i | 0 <= i < |list|
      ensures list[i].id !in Ids(deleted)
    {
      assert list[i] in list;
    }
  }
}

=== FILE: fragment.dfy ===
/**
 * The comments list fragment as a transition system. The fragment's fields
 * become one immutable State; each listener, task phase and menu callback is
 * a function from a State (and the event's inputs) to the next State plus the
 * effects it asks of its collaborators (remote calls, database reloads,
 * toasts). Answers from collaborators whose code is not modelled (network
 * reachability, the current blog, the remote reply, the reloaded list) arrive
 * as event parameters.
 */
module Fragment {

  import opened Wrappers
  import opened Comments
  import opened ActionMenu
  import opened Moderation

  /** Comments asked for per page. */
  const CommentsPerPage: nat := 30

  /** The XML-RPC fault code meaning the credentials were rejected. */
  const UnauthorizedFaultCode: int := 401

  /** What the empty view says when it is shown. */
  datatype EmptyViewMessage = Loading | NoContent | NetworkError | PermissionError | GenericError

  /** The task's error classification (the subset of ApiHelper.ErrorType it uses). */
  datatype ErrorType = NoError | Unauthorized | UnknownError | InvalidCurrentBlog

  /** Parameters of one page fetch: the offset is present only when loading more. */
  datatype PageRequest = PageRequest(offset: Option<nat>, number: nat)

  /**
   * Progress of the update task: created, request sent, or finished with a
   * result (the number of comments returned, None for a null list) and an error.
   */
  datatype TaskPhase =
    | Pending
    | AwaitingReply(request: PageRequest)
    | Finished(result: Option<nat>, error: ErrorType)

  datatype UpdateTask = UpdateTask(loadingMore: bool, phase: TaskPhase)

  /**
   * How the remote fetch ended: it returned a list (None for null) of some
   * length, raised an XML-RPC fault with a code, or raised any other exception.
   */
  datatype Reply = Returned(count: Option<nat>) | Fault(code: int) | Failed

  /** Which moderation listener resolves: status change (replace) or trash (delete). */
  datatype BatchKind = ReplaceBatch | DeleteBatch

  datatype Notice = RefreshUnauthorized | RefreshFailed | ModerateFailed

  /** Requests the fragment makes of its collaborators. */
  datatype Effect =
    | RemoveDeletedComments
    | FetchPage(request: PageRequest)
    | ReloadComments
    | ModerateRemote(kind: BatchKind, batch: seq<Comment>, target: Status)
    | ConfirmTrash
    | OpenComment(id: CommentId)
    | Toast(notice: Notice)
    | RefreshMenu(menu: MenuState)

  /**
   * The fragment's state. `attached` stands for the lifecycle guards (the
   * fragment is added, its adapter and empty view exist); `task` is the
   * running update task; `comments`, `selected` and `moderating` are the
   * adapter's list, selection and in-moderation identifiers.
   */
  datatype State = State(
    attached: bool,
    isUpdating: bool,
    canLoadMore: bool,
    hasCheckedDeleted: bool,
    emptyMessage: EmptyViewMessage,
    emptyVisible: bool,
    task: Option<UpdateTask>,
    comments: seq<Comment>,
    selected: set<CommentId>,
    moderating: set<CommentId>,
    actionMode: bool)

  datatype Transition = Transition(next: State, effects: seq<Effect>)

  datatype Event =
    | UpdateRequested(loadMore: bool, networkAvailable: bool)
    | RefreshStarted(networkAvailable: bool)
    | LoadMoreReached(networkAvailable: bool)
    | BackgroundStarted(blogAvailable: bool)
    | ReplyReceived(reply: Reply)
    | PostExecuted(cancelled: bool, finishing: bool)
    | TaskCancelled
    | DataLoaded(items: seq<Comment>)
    | SelectionChanged(selection: set<CommentId>)
    | CommentPressed(position: nat)
    | CommentLongPressed(position: nat)
    | ActionItemClicked(item: MenuItem, networkAvailable: bool)
    | TrashConfirmed(networkAvailable: bool)
    | CommentsModerated(kind: BatchKind, result: seq<Comment>)
    | ModeratingChanged(id: CommentId, isModerating: bool)
    | Detached

  /** A freshly created fragment: not updating, more may be loaded, deletions not yet checked. */
  function Initial(attached: bool): State
  {
    State(attached, false, true, false, NoContent, false, None, [], {}, {}, false)
  }

  /**
   * What every reachable state satisfies: the updating flag is set exactly
   * while a task exists, the empty view is never shown over comments while
   * attached, and a refresh request is only sent once deletions were checked.
   */
  predicate Valid(s: State)
  {
    && (s.isUpdating <==> s.task.Some?)
    && (s.attached && s.emptyVisible ==> |s.comments| == 0)
    && (s.task.Some? && !s.task.value.loadingMore && s.task.value.phase.AwaitingReply? ==> s.hasCheckedDeleted)
  }

  /** A transition started a new update task. */
  predicate Started(s: State, t: Transition)
  {
    !s.isUpdating && t.next.isUpdating
  }

  /** The task exists and has finished its background work. */
  predicate TaskFinished(s: State)
  {
    s.task.Some? && s.task.value.phase.Finished?
  }

  /** The sync flags, list and selection are the same in both states. */
  predicate SyncUntouched(s: State, r: State)
  {
    && r.canLoadMore == s.canLoadMore
    && r.hasCheckedDeleted == s.hasCheckedDeleted
    && r.comments == s.comments
    && r.selected == s.selected
    && r.moderating == s.moderating
    && r.actionMode == s.actionMode
    && r.attached == s.attached
  }

  // ---------------------------------------------------------------------------
  // Empty view

  /**
   * updateEmptyView: when the list is empty the view shows the new message and
   * records it; otherwise the view is hidden and the recorded message kept.
   * Without the view (not attached) nothing happens.
   */
  function UpdateEmptyView(s: State, message: EmptyViewMessage): (r: State)
    ensures !s.attached ==> r == s
    ensures s.attached ==> (r.emptyVisible <==> |s.comments| == 0)
    ensures s.attached && |s.comments| == 0 ==> r.emptyMessage == message
    ensures r.emptyMessage != s.emptyMessage ==> r.emptyVisible && r.emptyMessage == message
    ensures r == s.(emptyMessage := r.emptyMessage, emptyVisible := r.emptyVisible)
  {
    if !s.attached then s
    else if |s.comments| == 0 then s.(emptyMessage := message, emptyVisible := true)
    else s.(emptyVisible := false)
  }

  // ---------------------------------------------------------------------------
  // Starting a sync

  /**
   * updateComments together with the task's onPreExecute: a request while a
   * task runs is ignored; without network the empty view reports it; otherwise
   * the view says LOADING and a new task starts, pending its background work.
   */
  function UpdateComments(s: State, loadMore: bool, networkAvailable: bool): (t: Transition)
    ensures s.isUpdating ==> t == Transition(s, [])
    ensures t.effects == []
    ensures Started(s, t) <==> !s.isUpdating && networkAvailable
    ensures Started(s, t) ==> t.next.task == Some(UpdateTask(loadMore, Pending))
    ensures !s.isUpdating && !networkAvailable ==> t.next == UpdateEmptyView(s, NetworkError)
    ensures Started(s, t) ==>
      && t.next.emptyMessage == UpdateEmptyView(s, Loading).emptyMessage
      && t.next.emptyVisible == UpdateEmptyView(s, Loading).emptyVisible
    ensures SyncUntouched(s, t.next)
  {
    if s.isUpdating then Transition(s, [])
    else if !networkAvailable then Transition(UpdateEmptyView(s, NetworkError), [])
    else
      var shown := UpdateEmptyView(s, Loading);
      Transition(shown.(isUpdating := true, task := Some(UpdateTask(loadMore, Pending))), [])
  }

  /**
   * The swipe-to-refresh listener: ignored when detached or while the action
   * bar has disabled swiping; without network it reports the error even while
   * a task runs; otherwise it requests a refresh.
   */
  function StartRefresh(s: State, networkAvailable: bool): (t: Transition)
    ensures !s.attached || s.actionMode ==> t == Transition(s, [])
    ensures Started(s, t) <==> s.attached && !s.actionMode && networkAvailable && !s.isUpdating
    ensures Started(s, t) ==> t.next.task == Some(UpdateTask(false, Pending))
    ensures s.attached && !s.actionMode && !networkAvailable ==> t.next == UpdateEmptyView(s, NetworkError)
    ensures s.attached && !s.actionMode && networkAvailable ==> t == UpdateComments(s, false, true)
    ensures t.effects == [] && SyncUntouched(s, t.next)
  {
    if !s.attached || s.actionMode then Transition(s, [])
    else if !networkAvailable then Transition(UpdateEmptyView(s, NetworkError), [])
    else UpdateComments(s, false, networkAvailable)
  }

  /** The load-more listener: fetch the next page only if more may exist and no task runs. */
  function LoadMore(s: State, networkAvailable: bool): (t: Transition)
    ensures !(s.canLoadMore && !s.isUpdating) ==> t == Transition(s, [])
    ensures Started(s, t) <==> s.canLoadMore && !s.isUpdating && networkAvailable
    ensures Started(s, t) ==> t.next.task == Some(UpdateTask(true, Pending))
    ensures s.canLoadMore && !s.isUpdating ==> t == UpdateComments(s, true, networkAvailable)
    ensures s.canLoadMore && !s.isUpdating && !networkAvailable ==> t.next == UpdateEmptyView(s, NetworkError)
    ensures t.effects == [] && SyncUntouched(s, t.next)
  {
    if s.canLoadMore && !s.isUpdating then UpdateComments(s, true, networkAvailable)
    else Transition(s, [])
  }

  // ---------------------------------------------------------------------------
  // The update task

  /** The page parameters: offset is the current item count when loading more, absent on refresh. */
  function PageRequestFor(loadMore: bool, itemCount: nat): PageRequest
  {
    if loadMore then PageRequest(Some(itemCount), CommentsPerPage)
    else PageRequest(None, CommentsPerPage)
  }

  /**
   * doInBackground up to the remote call: detached or without a current blog
   * the task finishes with a null result; otherwise the first refresh of the
   * fragment's lifetime first asks for deleted comments to be pruned, and then
   * the page is requested.
   */
  function RunBackground(s: State, blogAvailable: bool): (t: Transition)
    ensures RemoveDeletedComments in t.effects <==>
      s.task == Some(UpdateTask(false, Pending)) && s.attached && blogAvailable && !s.hasCheckedDeleted
    ensures multiset(t.effects)[RemoveDeletedComments] <= 1
    ensures t.next.hasCheckedDeleted == (s.hasCheckedDeleted || RemoveDeletedComments in t.effects)
    ensures forall r :: FetchPage(r) in t.effects ==>
      && r.number == CommentsPerPage
      && s.task.Some?
      && (r.offset.Some? <==> s.task.value.loadingMore)
      && (r.offset.Some? ==> r.offset.value == |s.comments|)
    ensures (exists r :: FetchPage(r) in t.effects) <==>
      s.task.Some? && s.task.value.phase.Pending? && s.attached && blogAvailable
    ensures s.task.Some? && s.task.value.phase.Pending? && !s.attached ==>
      t.next.task == Some(s.task.value.(phase := Finished(None, NoError)))
    ensures s.task.Some? && s.task.value.phase.Pending? && s.attached && !blogAvailable ==>
      t.next.task == Some(s.task.value.(phase := Finished(None, InvalidCurrentBlog)))
    ensures forall e :: e in t.effects ==> e.FetchPage? || e == RemoveDeletedComments
    ensures t.next.isUpdating == s.isUpdating && t.next.task.Some? == s.task.Some?
    ensures t.next.comments == s.comments && t.next.selected == s.selected && t.next.canLoadMore == s.canLoadMore
    ensures t.next == s.(hasCheckedDeleted := t.next.hasCheckedDeleted, task := t.next.task)
    ensures !(s.task.Some? && s.task.value.phase.Pending?) ==> t == Transition(s, [])
    ensures forall r :: FetchPage(r) in t.effects ==>
      && t.next.task == Some(s.task.value.(phase := AwaitingReply(r)))
      && t.effects[|t.effects| - 1] == FetchPage(r)
  {
    if !(s.task.Some? && s.task.value.phase.Pending?) then Transition(s, [])
    else if !s.attached then
      Transition(s.(task := Some(s.task.value.(phase := Finished(None, NoError)))), [])
    else if !blogAvailable then
      Transition(s.(task := Some(s.task.value.(phase := Finished(None, InvalidCurrentBlog)))), [])
    else SendRequest(s, s.task.value)
  }

  /**
   * The remote part of doInBackground for a pending, attached task: the first
   * refresh prunes deleted comments, then the page is requested and the task
   * awaits its reply.
   */
  function SendRequest(s: State, task: UpdateTask): (t: Transition)
    ensures var request := PageRequestFor(task.loadingMore, |s.comments|);
      var reconcile := !s.hasCheckedDeleted && !task.loadingMore;
      && t.next == s.(hasCheckedDeleted := t.next.hasCheckedDeleted, task := t.next.task)
      && t.next.hasCheckedDeleted == (s.hasCheckedDeleted || reconcile)
      && t.next.task == Some(task.(phase := AwaitingReply(request)))
      && (RemoveDeletedComments in t.effects <==> reconcile)
      && multiset(t.effects)[FetchPage(request)] == 1
      && (forall f :: f in t.effects <==> f == FetchPage(request) || (reconcile && f == RemoveDeletedComments))
      && |t.effects| > 0 && t.effects[|t.effects| - 1] == FetchPage(request)
      && multiset(t.effects)[RemoveDeletedComments] == (if reconcile then 1 else 0)
      && (forall r :: FetchPage(r) in t.effects ==>
            t.next.task == Some(task.(phase := AwaitingReply(r))) && t.effects[|t.effects| - 1] == FetchPage(r))
  {
    var reconcile := !s.hasCheckedDeleted && !task.loadingMore;
    var request := PageRequestFor(task.loadingMore, |s.comments|);
    var next := s.(hasCheckedDeleted := s.hasCheckedDeleted || reconcile,
                   task := Some(task.(phase := AwaitingReply(request))));
    if reconcile then Transition(next, [RemoveDeletedComments, FetchPage(request)])
    else Transition(next, [FetchPage(request)])
  }

  /**
   * The try/catch around the remote call: a returned list carries no error; a
   * fault with code 401 is UNAUTHORIZED; any other fault or exception is
   * UNKNOWN_ERROR, with a null result.
   */
  function ClassifyReply(reply: Reply): (r: (Option<nat>, ErrorType))
    ensures r.1 == NoError <==> reply.Returned?
    ensures r.1 == Unauthorized <==> reply == Fault(UnauthorizedFaultCode)
    ensures r.1 == UnknownError <==> !reply.Returned? && reply != Fault(UnauthorizedFaultCode)
    ensures r.1 != NoError ==> r.0 == None
    ensures reply.Returned? ==> r.0 == reply.count
  {
    match reply
    case Returned(count) => (count, NoError)
    case Fault(code) => (None, if code == UnauthorizedFaultCode then Unauthorized else UnknownError)
    case Failed => (None, UnknownError)
  }

  /** The remote call returns: a task awaiting its reply finishes with the classified outcome. */
  function ReceiveReply(s: State, reply: Reply): (t: Transition)
    ensures s.task.Some? && s.task.value.phase.AwaitingReply? ==>
      && t.next.task.Some?
      && t.next.task.value.loadingMore == s.task.value.loadingMore
      && t.next.task.value.phase == Finished(ClassifyReply(reply).0, ClassifyReply(reply).1)
    ensures !(s.task.Some? && s.task.value.phase.AwaitingReply?) ==> t.next == s
    ensures t.effects == []
    ensures t.next == s.(task := t.next.task)
  {
    match s.task
    case None => Transition(s, [])
    case Some(task) =>
      if task.phase.AwaitingReply? then
        var (result, error) := ClassifyReply(reply);
        Transition(s.(task := Some(task.(phase := Finished(result, error)))), [])
      else Transition(s, [])
  }

  /**
   * The empty-view message a finished fetch calls for, or None when it
   * produced comments (the list is reloaded instead): a null result with an
   * error reports PERMISSION_ERROR for UNAUTHORIZED and GENERIC_ERROR
   * otherwise; anything else without comments is NO_CONTENT.
   */
  function OutcomeMessage(result: Option<nat>, error: ErrorType): Option<EmptyViewMessage>
  {
    if result.None? && error == Unauthorized then Some(PermissionError)
    else if result.None? && error != NoError then Some(GenericError)
    else if result.Some? && result.value > 0 then None
    else Some(NoContent)
  }

  /** The finished task's result and error (defaults when no task has finished). */
  function ResultOf(s: State): Option<nat>
  {
    if TaskFinished(s) then s.task.value.phase.result else None
  }

  function ErrorOf(s: State): ErrorType
  {
    if TaskFinished(s) then s.task.value.phase.error else NoError
  }

  /** A finished task's post-execute reaches the code after the cancellation check. */
  predicate Completes(s: State, cancelled: bool)
  {
    TaskFinished(s) && s.attached && !cancelled
  }

  /**
   * The reporting half of onPostExecute, once the task has completed: an error
   * with a null result is reported (the unauthorized toast only when the empty
   * view is not already showing, the generic one always) and the empty view
   * switched to its message; otherwise, unless the activity is finishing,
   * comments trigger a reload from the local database and no comments show
   * NO_CONTENT.
   */
  function ReportOutcome(s: State, result: Option<nat>, error: ErrorType, finishing: bool): (t: Transition)
    requires s.attached
    ensures ReloadComments in t.effects <==> !finishing && result.Some? && result.value > 0
    ensures Toast(RefreshUnauthorized) in t.effects <==>
      !finishing && result.None? && error == Unauthorized && !s.emptyVisible
    ensures Toast(RefreshFailed) in t.effects <==>
      !finishing && result.None? && error !in {NoError, Unauthorized}
    ensures !finishing && |s.comments| == 0 && OutcomeMessage(result, error).Some? ==>
      t.next.emptyVisible && t.next.emptyMessage == OutcomeMessage(result, error).value
    ensures |s.comments| > 0 || finishing || OutcomeMessage(result, error).None? ==> t.next.emptyMessage == s.emptyMessage
    ensures t.next == s.(emptyMessage := t.next.emptyMessage, emptyVisible := t.next.emptyVisible)
    ensures forall f :: f in t.effects ==> f == ReloadComments || f.Toast?
    ensures finishing ==> t == Transition(s, [])
    ensures !finishing && result.Some? && result.value > 0 ==> t == Transition(s, [ReloadComments])
    ensures |t.effects| <= 1
    ensures forall f :: f in t.effects ==> f in {ReloadComments, Toast(RefreshUnauthorized), Toast(RefreshFailed)}
    ensures t.next.emptyVisible ==> s.emptyVisible || |s.comments| == 0
  {
    if result.None? && !finishing && error != NoError then
      if error == Unauthorized then
        Transition(UpdateEmptyView(s, PermissionError), if s.emptyVisible then [] else [Toast(RefreshUnauthorized)])
      else
        Transition(UpdateEmptyView(s, GenericError), [Toast(RefreshFailed)])
    else if finishing then Transition(s, [])
    else if result.Some? && result.value > 0 then Transition(s, [ReloadComments])
    else Transition(UpdateEmptyView(s, NoContent), [])
  }

  /**
   * onPostExecute: the updating flag is always cleared; detached or cancelled,
   * nothing else happens; otherwise more may be loaded exactly when comments
   * came back, and the outcome is reported. The list itself is not touched.
   */
  function PostExecute(s: State, cancelled: bool, finishing: bool): (t: Transition)
    ensures !TaskFinished(s) ==> t == Transition(s, [])
    ensures TaskFinished(s) ==> !t.next.isUpdating && t.next.task == None
    ensures TaskFinished(s) && !Completes(s, cancelled) ==> t == Transition(s.(isUpdating := false, task := None), [])
    ensures Completes(s, cancelled) ==> (t.next.canLoadMore <==> ResultOf(s).Some? && ResultOf(s).value > 0)
    ensures Completes(s, cancelled) ==>
      t == ReportOutcome(s.(isUpdating := false, task := None, canLoadMore := t.next.canLoadMore), ResultOf(s), ErrorOf(s), finishing)
    ensures t.next.comments == s.comments && t.next.selected == s.selected
    ensures t.next.hasCheckedDeleted == s.hasCheckedDeleted && t.next.attached == s.attached
    ensures t.next.actionMode == s.actionMode && t.next.moderating == s.moderating
  {
    if !TaskFinished(s) then Transition(s, [])
    else
      var result := s.task.value.phase.result;
      var error := s.task.value.phase.error;
      var cleared := s.(isUpdating := false, task := None);
      if !cleared.attached || cancelled then Transition(cleared, [])
      else ReportOutcome(cleared.(canLoadMore := result.Some? && result.value > 0), result, error, finishing)
  }

  /** onCancelled: the task is dropped and the updating flag cleared; nothing else changes. */
  function Cancel(s: State): (t: Transition)
    ensures !t.next.isUpdating && t.next.task.None?
    ensures t.effects == []
    ensures SyncUntouched(s, t.next)
    ensures t.next.emptyMessage == s.emptyMessage && t.next.emptyVisible == s.emptyVisible
  {
    Transition(s.(isUpdating := false, task := None), [])
  }

  // ---------------------------------------------------------------------------
  // Adapter listeners

  /**
   * The adapter has (re)loaded `items` from the local database, then calls the
   * data-loaded listener: comments hide the empty view; an empty list turns a
   * LOADING message into NO_CONTENT once no task runs.
   */
  function LoadData(s: State, items: seq<Comment>): (t: Transition)
    ensures t.next.comments == items && t.effects == []
    ensures s.attached && |items| > 0 ==> !t.next.emptyVisible
    ensures t.next.emptyMessage != s.emptyMessage <==>
      s.attached && |items| == 0 && !s.isUpdating && s.emptyMessage == Loading
    ensures t.next.emptyMessage != s.emptyMessage ==> t.next.emptyMessage == NoContent && t.next.emptyVisible
    ensures t.next.emptyVisible != s.emptyVisible ==> s.attached
    ensures t.next.isUpdating == s.isUpdating && t.next.task == s.task
    ensures t.next.canLoadMore == s.canLoadMore && t.next.selected == s.selected
    ensures t.next == s.(comments := items, emptyMessage := t.next.emptyMessage, emptyVisible := t.next.emptyVisible)
    ensures |items| == 0 && t.next.emptyMessage == s.emptyMessage ==> t.next.emptyVisible == s.emptyVisible
  {
    var loaded := s.(comments := items);
    if !loaded.attached then Transition(loaded, [])
    else if |items| > 0 then Transition(loaded.(emptyVisible := false), [])
    else if !loaded.isUpdating && loaded.emptyMessage == Loading then
      Transition(UpdateEmptyView(loaded, NoContent), [])
    else Transition(loaded, [])
  }

  /**
   * The adapter's selection became `selection`; the selection listener then
   * ends the action mode when nothing is selected, and otherwise asks for the
   * menu to be prepared again.
   */
  function ChangeSelection(s: State, selection: set<CommentId>): (t: Transition)
    ensures t.next.selected == selection
    ensures t.next.actionMode <==> s.actionMode && |SelectedComments(s.comments, selection)| > 0
    ensures t.effects != [] <==> t.next.actionMode
    ensures t.next.actionMode ==> t.effects == [RefreshMenu(PrepareMenu(SelectedComments(s.comments, selection)))]
    ensures t.next == s.(selected := selection, actionMode := t.next.actionMode)
    ensures forall f :: f in t.effects ==> f.RefreshMenu?
  {
    var s1 := s.(selected := selection);
    if !s1.actionMode then Transition(s1, [])
    else
      var chosen := SelectedComments(s1.comments, selection);
      if |chosen| == 0 then Transition(s1.(actionMode := false), [])
      else Transition(s1, [RefreshMenu(PrepareMenu(chosen))])
  }

  /** Adds `id` to a selection that lacks it and removes it from one that has it. */
  function Toggle(selection: set<CommentId>, id: CommentId): (r: set<CommentId>)
    ensures id in r <==> id !in selection
    ensures forall x :: x != id ==> (x in r <==> x in selection)
  {
    if id in selection then selection - {id} else selection + {id}
  }

  /**
   * A tap on the comment at `position`: outside the action mode it opens the
   * comment unless it is being moderated; inside, it toggles its selection.
   */
  function PressComment(s: State, position: nat): (t: Transition)
    ensures (exists id :: OpenComment(id) in t.effects) <==>
      position < |s.comments| && !s.actionMode && s.comments[position].id !in s.moderating
    ensures position < |s.comments| && !s.actionMode && s.comments[position].id !in s.moderating ==>
      t == Transition(s, [OpenComment(s.comments[position].id)])
    ensures position < |s.comments| && s.actionMode ==>
      t == ChangeSelection(s, Toggle(s.selected, s.comments[position].id))
    ensures position >= |s.comments| || !s.actionMode ==> t.next == s
    ensures t.next == s.(selected := t.next.selected, actionMode := t.next.actionMode)
    ensures forall f :: f in t.effects ==> f.OpenComment? || f.RefreshMenu?
  {
    if position >= |s.comments| then Transition(s, [])
    else
      var id := s.comments[position].id;
      if !s.actionMode then
        if id in s.moderating then Transition(s, []) else Transition(s, [OpenComment(id)])
      else ChangeSelection(s, Toggle(s.selected, id))
  }

  /** A long press starts the action mode with that comment selected, or toggles it inside the mode. */
  function LongPressComment(s: State, position: nat): (t: Transition)
    ensures position < |s.comments| ==> t.next.actionMode || s.actionMode
    ensures position < |s.comments| && !s.actionMode ==>
      t.next.actionMode && s.comments[position].id in t.next.selected
    ensures position < |s.comments| && !s.actionMode ==> t.next.selected == s.selected + {s.comments[position].id}
    ensures position < |s.comments| && s.actionMode ==>
      t == ChangeSelection(s, Toggle(s.selected, s.comments[position].id))
    ensures position >= |s.comments| ==> t == Transition(s, [])
    ensures SyncUntouched(s, t.next.(selected := s.selected, actionMode := s.actionMode))
    ensures t.next == s.(selected := t.next.selected, actionMode := t.next.actionMode)
    ensures forall f :: f in t.effects ==> f.RefreshMenu?
  {
    if position >= |s.comments| then Transition(s, [])
    else
      var id := s.comments[position].id;
      if !s.actionMode then
        assert s.comments[position] in SelectedComments(s.comments, s.selected + {id});
        ChangeSelection(s.(actionMode := true), s.selected + {id})
      else ChangeSelection(s, Toggle(s.selected, id))
  }

  /** setCommentIsModerating: marks or unmarks one comment as being moderated. */
  function SetModerating(s: State, id: CommentId, isModerating: bool): (t: Transition)
    ensures s.attached ==> (id in t.next.moderating <==> isModerating)
    ensures forall x :: x != id ==> (x in t.next.moderating <==> x in s.moderating)
    ensures !s.attached ==> t.next == s
    ensures t.effects == [] && t.next == s.(moderating := t.next.moderating)
  {
    if !s.attached then Transition(s, [])
    else if isModerating then Transition(s.(moderating := s.moderating + {id}), [])
    else Transition(s.(moderating := s.moderating - {id}), [])
  }

  // ---------------------------------------------------------------------------
  // Batch moderation

  /**
   * moderateSelectedComments: sends exactly the selected comments whose status
   * differs from `target`; makes no call when there are none, without network,
   * or for a status outside the four it knows. The state itself is unchanged
   * until the call resolves.
   */
  function ModerateSelected(s: State, target: Status, networkAvailable: bool): (t: Transition)
    ensures t.next == s && |t.effects| <= 1
    ensures forall f :: f in t.effects ==> f.ModerateRemote? && f.kind == ReplaceBatch && f.target == target
    ensures t.effects != [] <==>
      networkAvailable && target != Unknown &&
      exists i :: 0 <= i < |s.comments| && s.comments[i].id in s.selected && s.comments[i].status != target
    ensures t.effects != [] ==> t.effects[0].ModerateRemote? && t.effects[0].kind == ReplaceBatch && t.effects[0].target == target
    ensures t.effects != [] ==> forall c :: c in t.effects[0].batch <==>
      c in s.comments && c.id in s.selected && c.status != target
    ensures t.effects != [] ==> t.effects[0].batch == ModerationBatch(SelectedComments(s.comments, s.selected), target)
  {
    var batch := ModerationBatch(SelectedComments(s.comments, s.selected), target);
    if |batch| == 0 || !networkAvailable || target == Unknown then Transition(s, [])
    else
      assert batch[0] in batch;
      Transition(s, [ModerateRemote(ReplaceBatch, batch, target)])
  }

  /** deleteSelectedComments: trashes every selected comment, without filtering by status. */
  function DeleteSelected(s: State, networkAvailable: bool): (t: Transition)
    ensures t.next == s
    ensures t.effects != [] <==> networkAvailable
    ensures t.effects != [] ==>
      && |t.effects| == 1 && t.effects[0].ModerateRemote?
      && t.effects[0].kind == DeleteBatch && t.effects[0].target == Trash
      && (forall c :: c in t.effects[0].batch <==> c in s.comments && c.id in s.selected)
      && t.effects[0].batch == SelectedComments(s.comments, s.selected)
  {
    if !networkAvailable then Transition(s, [])
    else Transition(s, [ModerateRemote(DeleteBatch, SelectedComments(s.comments, s.selected), Trash)])
  }

  /**
   * onActionItemClicked: with nothing selected no item is handled; approve,
   * unapprove and spam moderate the selection, trash first asks for confirmation.
   * Returns whether the click was handled.
   */
  function ClickActionItem(s: State, item: MenuItem, networkAvailable: bool): (r: (bool, Transition))
    ensures r.0 <==> |SelectedComments(s.comments, s.selected)| > 0 && item != OtherItem
    ensures !r.0 ==> r.1 == Transition(s, [])
    ensures r.1.next == s
    ensures forall f :: f in r.1.effects ==> f == ConfirmTrash || f.ModerateRemote?
    ensures r.0 && item == TrashItem ==> r.1.effects == [ConfirmTrash]
    ensures r.0 && item == ApproveItem ==> r.1 == ModerateSelected(s, Approved, networkAvailable)
    ensures r.0 && item == UnapproveItem ==> r.1 == ModerateSelected(s, Unapproved, networkAvailable)
    ensures r.0 && item == SpamItem ==> r.1 == ModerateSelected(s, Spam, networkAvailable)
  {
    if |SelectedComments(s.comments, s.selected)| == 0 then (false, Transition(s, []))
    else
      match item
      case ApproveItem => (true, ModerateSelected(s, Approved, networkAvailable))
      case UnapproveItem => (true, ModerateSelected(s, Unapproved, networkAvailable))
      case SpamItem => (true, ModerateSelected(s, Spam, networkAvailable))
      case TrashItem => (true, Transition(s, [ConfirmTrash]))
      case OtherItem => (false, Transition(s, []))
  }

  /**
   * The moderation listener: the action mode always ends; a non-empty result
   * clears the selection and replaces (or, on the trash path, removes) the
   * returned comments; an empty result only shows a failure toast.
   */
  function ResolveModeration(s: State, kind: BatchKind, result: seq<Comment>): (t: Transition)
    ensures !s.attached ==> t == Transition(s, [])
    ensures s.attached ==> !t.next.actionMode
    ensures s.attached && |result| == 0 ==> t == Transition(s.(actionMode := false), [Toast(ModerateFailed)])
    ensures s.attached && |result| > 0 ==> t.next.selected == {} && t.effects == []
    ensures s.attached && |result| > 0 && kind == ReplaceBatch ==>
      && |t.next.comments| == |s.comments|
      && (forall i :: 0 <= i < |s.comments| ==> t.next.comments[i].id == s.comments[i].id)
      && (forall i :: 0 <= i < |s.comments| && s.comments[i].id in Ids(result) ==> t.next.comments[i] in result)
      && (forall i :: 0 <= i < |s.comments| && s.comments[i].id !in Ids(result) ==> t.next.comments[i] == s.comments[i])
    ensures s.attached && |result| > 0 && kind == DeleteBatch ==>
      forall c :: c in t.next.comments <==> c in s.comments && c.id !in Ids(result)
    ensures s.attached && |result| > 0 && kind == DeleteBatch ==> t.next.comments == DeleteComments(s.comments, result)
    ensures t.next.attached == s.attached
    ensures t.next.isUpdating == s.isUpdating && t.next.task == s.task && t.next.canLoadMore == s.canLoadMore
    ensures t.next.hasCheckedDeleted == s.hasCheckedDeleted && t.next.moderating == s.moderating
    ensures t.next.emptyMessage == s.emptyMessage && t.next.emptyVisible == s.emptyVisible
  {
    if !s.attached then Transition(s, [])
    else
      var finished := s.(actionMode := false);
      if |result| > 0 then
        var list := if kind == ReplaceBatch then ReplaceComments(s.comments, result)
                    else DeleteComments(s.comments, result);
        Transition(finished.(selected := {}, comments := list), [])
      else Transition(finished, [Toast(ModerateFailed)])
  }

  // ---------------------------------------------------------------------------
  // The whole fragment

  /** One event handled by the fragment. */
  function Step(s: State, e: Event): Transition
  {
    match e
    case UpdateRequested(loadMore, net) => UpdateComments(s, loadMore, net)
    case RefreshStarted(net) => StartRefresh(s, net)
    case LoadMoreReached(net) => LoadMore(s, net)
    case BackgroundStarted(blog) => RunBackground(s, blog)
    case ReplyReceived(reply) => ReceiveReply(s, reply)
    case PostExecuted(cancelled, finishing) => PostExecute(s, cancelled, finishing)
    case TaskCancelled => Cancel(s)
    case DataLoaded(items) => LoadData(s, items)
    case SelectionChanged(selection) => ChangeSelection(s, selection)
    case CommentPressed(position) => PressComment(s, position)
    case CommentLongPressed(position) => LongPressComment(s, position)
    case ActionItemClicked(item, net) => ClickActionItem(s, item, net).1
    case TrashConfirmed(net) => DeleteSelected(s, net)
    case CommentsModerated(kind, result) => ResolveModeration(s, kind, result)
    case ModeratingChanged(id, isModerating) => SetModerating(s, id, isModerating)
    case Detached => Transition(s.(attached := false), [])
  }

  /** Events that belong to the sync machinery rather than to the list or the selection. */
  predicate IsSyncEvent(e: Event)
  {
    || e.UpdateRequested? || e.RefreshStarted? || e.LoadMoreReached?
    || e.BackgroundStarted? || e.ReplyReceived? || e.PostExecuted? || e.TaskCancelled?
  }

  /**
   * What an event outside the sync machinery leaves alone: the update task,
   * the updating flag and the deletion check; it asks for neither a page nor
   * a reconciliation, and it keeps the state valid.
   */
  predicate LeavesTaskAlone(s: State, t: Transition)
  {
    && t.next.task == s.task && t.next.isUpdating == s.isUpdating
    && t.next.hasCheckedDeleted == s.hasCheckedDeleted
    && (forall f :: f in t.effects ==> !f.FetchPage? && f != RemoveDeletedComments)
    && (Valid(s) ==> Valid(t.next))
  }

  /** Events from the list, the action mode and the lifecycle leave the update task alone. */
  lemma UserEventLeavesTaskAlone(s: State, e: Event)
    requires !IsSyncEvent(e)
    ensures LeavesTaskAlone(s, Step(s, e))
  {
    if e.ActionItemClicked? || e.TrashConfirmed? || e.CommentsModerated? {
      ModerationEventLeavesTaskAlone(s, e);
    } else if e.SelectionChanged? || e.CommentPressed? || e.CommentLongPressed? {
      SelectionEventLeavesTaskAlone(s, e);
    } else {
      ListEventLeavesTaskAlone(s, e);
    }
  }

  /** The moderation events: the menu click, the trash confirmation and the moderation result. */
  lemma ModerationEventLeavesTaskAlone(s: State, e: Event)
    requires e.ActionItemClicked? || e.TrashConfirmed? || e.CommentsModerated?
    ensures LeavesTaskAlone(s, Step(s, e))
  {
    // One arm per event, so that each handler is unfolded on its own.
    match e
    case ActionItemClicked(item, net) =>
    case TrashConfirmed(net) =>
    case CommentsModerated(kind, result) =>
  }

  /** The adapter's selection listener, taps and long presses. */
  lemma SelectionEventLeavesTaskAlone(s: State, e: Event)
    requires e.SelectionChanged? || e.CommentPressed? || e.CommentLongPressed?
    ensures LeavesTaskAlone(s, Step(s, e))
  {
    // One arm per event, so that each handler is unfolded on its own.
    match e
    case SelectionChanged(selection) =>
    case CommentPressed(position) =>
    case CommentLongPressed(position) =>
  }

  /** The adapter's data-loaded listener, the moderating marks and the lifecycle. */
  lemma ListEventLeavesTaskAlone(s: State, e: Event)
    requires e.DataLoaded? || e.ModeratingChanged? || e.Detached?
    ensures LeavesTaskAlone(s, Step(s, e))
  {
    // One arm per event, so that each handler is unfolded on its own.
    match e
    case DataLoaded(items) =>
    case ModeratingChanged(id, isModerating) =>
    case Detached =>
  }

  /**
   * The sync events other than the background phase send no request, leave
   * the deletion check alone, and only leave a pending task behind when they
   * start one.
   */
  lemma SyncEventSendsNothing(s: State, e: Event)
    requires IsSyncEvent(e) && !e.BackgroundStarted?
    ensures forall f :: f in Step(s, e).effects ==> !f.FetchPage? && f != RemoveDeletedComments
    ensures Step(s, e).next.hasCheckedDeleted == s.hasCheckedDeleted
    ensures PendingCount(Step(s, e).next) <= PendingCount(s) + (if Started(s, Step(s, e)) then 1 else 0)
  {
    // One arm per event, so that each handler is unfolded on its own.
    match e
    case UpdateRequested(loadMore, net) =>
    case RefreshStarted(net) =>
    case LoadMoreReached(net) =>
    case ReplyReceived(reply) =>
    case PostExecuted(cancelled, finishing) =>
    case TaskCancelled =>
  }

  /** Every sync event keeps the state valid. */
  lemma SyncEventPreservesValid(s: State, e: Event)
    requires Valid(s) && IsSyncEvent(e)
    ensures Valid(Step(s, e).next)
  {
    // One arm per event, so that each handler is unfolded on its own.
    match e
    case UpdateRequested(loadMore, net) =>
    case RefreshStarted(net) =>
    case LoadMoreReached(net) =>
    case BackgroundStarted(blog) =>
    case ReplyReceived(reply) =>
    case PostExecuted(cancelled, finishing) =>
    case TaskCancelled =>
  }

  lemma InitialIsValid(attached: bool)
    ensures Valid(Initial(attached))
    ensures !Initial(attached).isUpdating && Initial(attached).canLoadMore && !Initial(attached).hasCheckedDeleted
  {
  }

  /** Every event keeps the state valid. */
  lemma StepPreservesValid(s: State, e: Event)
    requires Valid(s)
    ensures Valid(Step(s, e).next)
  {
    if IsSyncEvent(e) {
      SyncEventPreservesValid(s, e);
    } else {
      UserEventLeavesTaskAlone(s, e);
    }
  }

  /**
   * At most one fetch in flight: an event issues a page request only for a
   * task that has not sent one yet, and that task then awaits its reply.
   */
  lemma FetchOnlyFromPendingTask(s: State, e: Event, r: PageRequest)
    requires FetchPage(r) in Step(s, e).effects
    ensures s.task.Some? && s.task.value.phase.Pending?
    ensures Step(s, e).next.task.Some? && Step(s, e).next.task.value.phase == AwaitingReply(r)
  {
    if e.BackgroundStarted? {
      // Settled by the contract of RunBackground.
    } else if IsSyncEvent(e) {
      SyncEventSendsNothing(s, e);
    } else {
      UserEventLeavesTaskAlone(s, e);
    }
  }

  /** A new task is only ever started while none is running. */
  lemma StartOnlyWhenIdle(s: State, e: Event)
    requires Valid(s)
    requires Step(s, e).next.task.Some? && Step(s, e).next.task.value.phase.Pending?
    requires !(s.task.Some? && s.task.value.phase.Pending?)
    ensures !s.isUpdating && s.task.None?
  {
    if !IsSyncEvent(e) {
      UserEventLeavesTaskAlone(s, e);
    }
  }

  /** With a valid state, an unauthorized failure is always reported: by a toast or by the empty view. */
  lemma UnauthorizedIsReported(s: State)
    requires Valid(s)
    requires TaskFinished(s) && s.task.value.phase == Finished(None, Unauthorized) && s.attached
    ensures var t := PostExecute(s, false, false);
      Toast(RefreshUnauthorized) in t.effects || (t.next.emptyVisible && t.next.emptyMessage == PermissionError)
  {
  }

  /** The number of page requests among `effects`. */
  function CountFetches(effects: seq<Effect>): nat
  {
    if |effects| == 0 then 0
    else (if effects[0].FetchPage? then 1 else 0) + CountFetches(effects[1..])
  }

  /** Effects without a page request count none. */
  lemma {:induction false} NoFetches(effects: seq<Effect>)
    requires forall f :: f in effects ==> !f.FetchPage?
    ensures CountFetches(effects) == 0
    decreases |effects|
  {
    if |effects| > 0 {
      assert effects[0] in effects;
      assert forall f :: f in effects[1..] ==> f in effects;
      NoFetches(effects[1..]);
    }
  }

  /** 1 when a task exists that has not sent its request yet. */
  function PendingCount(s: State): nat
  {
    if s.task.Some? && s.task.value.phase.Pending? then 1 else 0
  }

  /**
   * Page requests are accounted for: each event sends at most one, and only
   * by consuming a pending task; a pending task only appears when a new task
   * is started.
   */
  lemma StepFetchAccounting(s: State, e: Event)
    ensures CountFetches(Step(s, e).effects) + PendingCount(Step(s, e).next)
      <= PendingCount(s) + (if Started(s, Step(s, e)) then 1 else 0)
  {
    if e.BackgroundStarted? {
      BackgroundFetchAccounting(s, e.blogAvailable);
    } else if IsSyncEvent(e) {
      SyncEventSendsNothing(s, e);
    } else {
      UserEventLeavesTaskAlone(s, e);
      NoFetches(Step(s, e).effects);
    }
  }

  /** The background phase sends at most one request, and only by consuming the pending task. */
  lemma BackgroundFetchAccounting(s: State, blog: bool)
    ensures CountFetches(RunBackground(s, blog).effects) + PendingCount(RunBackground(s, blog).next) <= PendingCount(s)
  {
    var t := RunBackground(s, blog);
    if s.task.Some? && s.task.value.phase.Pending? && s.attached && blog {
      var request := PageRequestFor(s.task.value.loadingMore, |s.comments|);
      assert CountFetches([FetchPage(request)]) == 1 + CountFetches([]);
      if !s.hasCheckedDeleted && !s.task.value.loadingMore {
        assert t.effects == [RemoveDeletedComments, FetchPage(request)];
        assert t.effects[1..] == [FetchPage(request)];
      } else {
        assert t.effects == [FetchPage(request)];
      }
    }
  }

  /**
   * Deleted-comment reconciliation: requested at most once per event, only by
   * a refresh task, and only while the flag is still clear; the flag then
   * stays set.
   */
  lemma StepReconcilesOnce(s: State, e: Event)
    ensures multiset(Step(s, e).effects)[RemoveDeletedComments] <= 1
    ensures RemoveDeletedComments in Step(s, e).effects ==>
      !s.hasCheckedDeleted && s.task == Some(UpdateTask(false, Pending)) && Step(s, e).next.hasCheckedDeleted
    ensures s.hasCheckedDeleted ==> Step(s, e).next.hasCheckedDeleted
  {
    if e.BackgroundStarted? {
      // Settled by the contract of RunBackground.
    } else if IsSyncEvent(e) {
      SyncEventSendsNothing(s, e);
    } else {
      UserEventLeavesTaskAlone(s, e);
    }
  }
}

=== FILE: moderation.dfy ===
/**
 * The batch sent by moderateSelectedComments: the selected comments whose
 * status actually changes, and how that batch relates to the action menu.
 */
module Moderation {

  import opened Comments
  import opened ActionMenu

  /**
   * The selected comments whose status differs from `target`, in selection
   * order; an empty batch means no remote call is made.
   */
  function ModerationBatch(selected: seq<Comment>, target: Status): (batch: seq<Comment>)
    ensures forall c :: c in batch <==> c in selected && c.status != target
    ensures forall c :: c in batch ==> c.status != target
    ensures forall c {:trigger multiset(batch)[c]} :: multiset(batch)[c] == if c.status == target then 0 else multiset(selected)[c]
    ensures |batch| == 0 <==> forall i :: 0 <= i < |selected| ==> selected[i].status == target
    ensures IsSubsequence(batch, selected)
  {
    Filter(selected, (c: Comment) => c.status != target)
  }

  /** The spam item is enabled exactly when marking the selection as spam sends a non-empty batch. */
  lemma SpamEnabledIffBatchNonEmpty(selected: seq<Comment>)
    ensures PrepareMenu(selected).spam <==> |ModerationBatch(selected, Spam)| > 0
  {
  }

  /** An enabled approve item always leads to a non-empty approve batch. */
  lemma ApproveEnabledHasBatch(selected: seq<Comment>)
    requires PrepareMenu(selected).approve
    ensures |ModerationBatch(selected, Approved)| > 0
  {
  }

  /** An enabled unapprove item always leads to a non-empty unapprove batch. */
  lemma UnapproveEnabledHasBatch(selected: seq<Comment>)
    requires PrepareMenu(selected).unapprove
    ensures |ModerationBatch(selected, Unapproved)| > 0
  {
  }
}

=== FILE: traces.dfy ===
/**
 * Runs of the fragment: a sequence of events handled one after the other.
 * Most properties here hold over every run, whatever the collaborators
 * answer; LoadMoreRequestsNextPage, UnauthorizedRefresh and
 * CancelledFetchLeavesNoTrace each follow one fixed sequence of events.
 */
module Traces {

  import opened Wrappers
  import opened Comments
  import opened Fragment

  /** The fragment after handling `events` in order, with every effect requested on the way. */
  function Run(s: State, events: seq<Event>): Transition
    decreases |events|
  {
    if |events| == 0 then Transition(s, [])
    else
      var first := Step(s, events[0]);
      var rest := Run(first.next, events[1..]);
      Transition(rest.next, first.effects + rest.effects)
  }

  /** The number of events in a run that start a new update task. */
  function Starts(s: State, events: seq<Event>): nat
    decreases |events|
  {
    if |events| == 0 then 0
    else
      var first := Step(s, events[0]);
      (if Started(s, first) then 1 else 0) + Starts(first.next, events[1..])
  }

  lemma {:induction false} CountFetchesAppend(a: seq<Effect>, b: seq<Effect>)
    ensures CountFetches(a + b) == CountFetches(a) + CountFetches(b)
    decreases |a|
  {
    if |a| > 0 {
      assert (a + b)[1..] == a[1..] + b;
      CountFetchesAppend(a[1..], b);
    } else {
      assert a + b == b;
    }
  }

  /** A run is its first step followed by the run of the rest. */
  lemma RunCons(s: State, e: Event, rest: seq<Event>)
    ensures Run(s, [e] + rest) ==
      Transition(Run(Step(s, e).next, rest).next, Step(s, e).effects + Run(Step(s, e).next, rest).effects)
  {
    assert ([e] + rest)[1..] == rest;
  }

  /** Every run from a valid state ends in a valid state. */
  lemma {:induction false} RunPreservesValid(s: State, events: seq<Event>)
    requires Valid(s)
    ensures Valid(Run(s, events).next)
    decreases |events|
  {
    if |events| > 0 {
      StepPreservesValid(s, events[0]);
      RunPreservesValid(Step(s, events[0]).next, events[1..]);
    }
  }

  /**
   * Deleted comments are reconciled at most once per fragment lifetime: never
   * again once the flag is set, at most once otherwise, and the flag stays set.
   */
  lemma {:induction false} ReconciliationAtMostOnce(s: State, events: seq<Event>)
    ensures s.hasCheckedDeleted ==> Run(s, events).next.hasCheckedDeleted
    ensures multiset(Run(s, events).effects)[RemoveDeletedComments] <= if s.hasCheckedDeleted then 0 else 1
    ensures RemoveDeletedComments in Run(s, events).effects ==> Run(s, events).next.hasCheckedDeleted
    decreases |events|
  {
    if |events| > 0 {
      var first := Step(s, events[0]);
      StepReconcilesOnce(s, events[0]);
      ReconciliationAtMostOnce(first.next, events[1..]);
      assert multiset(Run(s, events).effects) == multiset(first.effects) + multiset(Run(first.next, events[1..]).effects);
    }
  }

  /**
   * No duplicate fetches: every page request of a run belongs to a distinct
   * task, one the run started or the one already pending at its beginning.
   */
  lemma {:induction false} FetchesMatchStartedTasks(s: State, events: seq<Event>)
    ensures CountFetches(Run(s, events).effects) + PendingCount(Run(s, events).next)
      <= PendingCount(s) + Starts(s, events)
    decreases |events|
  {
    if |events| > 0 {
      var first := Step(s, events[0]);
      StepFetchAccounting(s, events[0]);
      FetchesMatchStartedTasks(first.next, events[1..]);
      CountFetchesAppend(first.effects, Run(first.next, events[1..]).effects);
    }
  }

  /** One sync event leaves the list and the selection alone, and only a post-execute sets the load-more flag. */
  lemma StepSyncKeepsList(s: State, e: Event)
    requires IsSyncEvent(e)
    ensures Step(s, e).next.comments == s.comments && Step(s, e).next.selected == s.selected
    ensures !e.PostExecuted? ==> Step(s, e).next.canLoadMore == s.canLoadMore
  {
    // One arm per event, so that each handler is unfolded on its own.
    match e
    case UpdateRequested(loadMore, net) =>
    case RefreshStarted(net) =>
    case LoadMoreReached(net) =>
    case BackgroundStarted(blog) =>
    case ReplyReceived(reply) =>
    case PostExecuted(cancelled, finishing) =>
    case TaskCancelled =>
  }

  /**
   * Fetching never merges into the list: sync events leave the comments and
   * the selection alone (a successful fetch only asks for a reload), and
   * without a post-execute the load-more flag is untouched too.
   */
  lemma {:induction false} SyncNeverTouchesList(s: State, events: seq<Event>)
    requires forall i :: 0 <= i < |events| ==> IsSyncEvent(events[i])
    ensures Run(s, events).next.comments == s.comments
    ensures Run(s, events).next.selected == s.selected
    ensures (forall i :: 0 <= i < |events| ==> !events[i].PostExecuted?) ==>
      Run(s, events).next.canLoadMore == s.canLoadMore
    decreases |events|
  {
    if |events| > 0 {
      var first := Step(s, events[0]);
      StepSyncKeepsList(s, events[0]);
      assert forall i :: 0 <= i < |events| - 1 ==> events[1..][i] == events[i + 1];
      SyncNeverTouchesList(first.next, events[1..]);
    }
  }

  /**
   * Loading more from an idle fragment that may load more asks for exactly one
   * page, at the current item count, of thirty comments.
   */
  lemma LoadMoreRequestsNextPage(s: State)
    requires Valid(s) && s.attached && s.canLoadMore && !s.isUpdating
    ensures Run(s, [LoadMoreReached(true), BackgroundStarted(true)]).effects
      == [FetchPage(PageRequest(Some(|s.comments|), CommentsPerPage))]
  {
    var s1 := Step(s, LoadMoreReached(true)).next;
    assert s1.task == Some(UpdateTask(true, Pending));
    assert [LoadMoreReached(true), BackgroundStarted(true)][1..] == [BackgroundStarted(true)];
  }

  /**
   * An unauthorized refresh from an idle, attached fragment: the toast appears
   * exactly when comments are shown (the empty view showing LOADING suppresses
   * it), an empty list shows the permission error instead, and no more pages
   * are offered.
   */
  lemma UnauthorizedRefresh(s: State)
    requires Valid(s) && s.attached && !s.isUpdating
    ensures var t := Run(s, [UpdateRequested(false, true), BackgroundStarted(true),
                             ReplyReceived(Fault(UnauthorizedFaultCode)), PostExecuted(false, false)]);
      && (Toast(RefreshUnauthorized) in t.effects <==> |s.comments| > 0)
      && (|s.comments| == 0 ==> t.next.emptyVisible && t.next.emptyMessage == PermissionError)
      && !t.next.isUpdating && !t.next.canLoadMore && t.next.hasCheckedDeleted
  {
    UnauthorizedRefreshHandlers(s);
    UnauthorizedRefreshRun(s);
  }

  /** The four handlers the refresh events dispatch to, and what each reports. */
  lemma UnauthorizedRefreshHandlers(s: State)
    requires Valid(s) && s.attached && !s.isUpdating
    ensures var t1 := UpdateComments(s, false, true);
      var t2 := RunBackground(t1.next, true);
      var t3 := ReceiveReply(t2.next, Fault(UnauthorizedFaultCode));
      var t4 := PostExecute(t3.next, false, false);
      && Toast(RefreshUnauthorized) !in t1.effects
      && Toast(RefreshUnauthorized) !in t2.effects
      && Toast(RefreshUnauthorized) !in t3.effects
      && (Toast(RefreshUnauthorized) in t4.effects <==> |s.comments| > 0)
      && (|s.comments| == 0 ==> t4.next.emptyVisible && t4.next.emptyMessage == PermissionError)
      && !t4.next.isUpdating && !t4.next.canLoadMore && t4.next.hasCheckedDeleted
  {
    var t1 := UpdateComments(s, false, true);
    var t2 := RunBackground(t1.next, true);
    var t3 := ReceiveReply(t2.next, Fault(UnauthorizedFaultCode));
    assert t1.next.emptyVisible <==> |s.comments| == 0;
    assert t3.next.task == Some(UpdateTask(false, Finished(None, Unauthorized)));
  }

  /** The run of the refresh events is the four handlers one after the other. */
  lemma UnauthorizedRefreshRun(s: State)
    ensures var t1 := UpdateComments(s, false, true);
      var t2 := RunBackground(t1.next, true);
      var t3 := ReceiveReply(t2.next, Fault(UnauthorizedFaultCode));
      var t4 := PostExecute(t3.next, false, false);
      Run(s, [UpdateRequested(false, true), BackgroundStarted(true),
              ReplyReceived(Fault(UnauthorizedFaultCode)), PostExecuted(false, false)])
        == Transition(t4.next, t1.effects + (t2.effects + (t3.effects + (t4.effects + []))))
  {
    var e0, e1, e2, e3 := UpdateRequested(false, true), BackgroundStarted(true),
                          ReplyReceived(Fault(UnauthorizedFaultCode)), PostExecuted(false, false);
    var t1 := UpdateComments(s, false, true);
    var t2 := RunBackground(t1.next, true);
    var t3 := ReceiveReply(t2.next, Fault(UnauthorizedFaultCode));
    var t4 := PostExecute(t3.next, false, false);
    assert Step(s, e0) == t1 && Step(t1.next, e1) == t2;
    assert Step(t2.next, e2) == t3 && Step(t3.next, e3) == t4;
    RunFour(s, e0, e1, e2, e3);
  }

  /** A run of four events is its four steps one after the other. */
  lemma RunFour(s: State, e0: Event, e1: Event, e2: Event, e3: Event)
    ensures var t1 := Step(s, e0);
      var t2 := Step(t1.next, e1);
      var t3 := Step(t2.next, e2);
      var t4 := Step(t3.next, e3);
      Run(s, [e0, e1, e2, e3]) == Transition(t4.next, t1.effects + (t2.effects + (t3.effects + (t4.effects + []))))
  {
    var t1 := Step(s, e0);
    var t2 := Step(t1.next, e1);
    var t3 := Step(t2.next, e2);
    RunCons(t3.next, e3, []);
    RunCons(t2.next, e2, [e3]);
    RunCons(t1.next, e1, [e2, e3]);
    RunCons(s, e0, [e1, e2, e3]);
    assert [e0, e1, e2, e3] == [e0] + [e1, e2, e3];
    assert [e1, e2, e3] == [e1] + [e2, e3];
    assert [e2, e3] == [e2] + [e3];
  }

  /**
   * A cancelled fetch leaves no trace on the list, the selection or the
   * load-more flag, and the fragment is idle again.
   */
  lemma CancelledFetchLeavesNoTrace(s: State, loadMore: bool, reply: Reply)
    requires Valid(s) && !s.isUpdating
    ensures var t := Run(s, [UpdateRequested(loadMore, true), BackgroundStarted(true),
                             ReplyReceived(reply), TaskCancelled]);
      && t.next.comments == s.comments && t.next.selected == s.selected
      && t.next.canLoadMore == s.canLoadMore && !t.next.isUpdating && t.next.task.None?
  {
    var e0, e1, e2, e3 := UpdateRequested(loadMore, true), BackgroundStarted(true), ReplyReceived(reply), TaskCancelled;
    SyncNeverTouchesList(s, [e0, e1, e2, e3]);
    RunFour(s, e0, e1, e2, e3);
  }

}

=== FILE: wrappers.dfy ===
/** The conventional optional value, standing in for Java's nullable references. */
module Wrappers {

  datatype Option<+T> = None | Some(value: T)
}
